=== FILE: README.md ===
# SARF browser shell — Dafny model

This project models the deterministic core of the SARF browser's window
procedure (`browser/browser.cpp`): the frameless Win32 window that hosts one
WebView2 surface per tab. The core is one shell state — the ordered tab
vector, the active tab index (-1 for none), the history list, the sidebar,
extras-view, expand and video-fullscreen flags, the current sidebar width and
the quit signal — and the transitions that the window messages and the
surfaces' notifications drive through it:

- **Tab registry** (`Shell`): the completion of `CreateNewTab`, `SwitchToTab`,
  `CloseTab`, and the title and fullscreen notifications of a surface.
- **History log** (`History`): every source change inserts at the head and
  drops the tail past 25 entries. Duplicates are kept.
- **Commands** (`Shell.OnCommand`): close, sidebar toggle, extras-view toggle,
  and expand. Expand sets the sidebar width to 550 or 260.
- **Layout** (`Geometry`): the pure integer geometry of `UpdateLayout` and
  `WM_PAINT`. This covers the content bounds, the window buttons, the centred
  address edit, the tab strip with its close boxes, and the new-tab button.
- **Hit testing** (`HitTest`): the tab-strip click of `WM_LBUTTONDOWN` and the
  `WM_NCHITTEST` classification of the frameless window.
- **Address bar** (`Address`, `AddressBar`): the text read from the edit is
  sent to the search URL unless it contains `"://"`.

Everything is a pure function over immutable datatypes. A surface's
identity (the source compares webview objects) is a `nat` id taken from
the `nextId` counter. Two fields of the tab stand for surface state:
`wantsFullScreen` is what `get_ContainsFullScreenElement` would answer, and
`visible` records the last `put_IsVisible` call. The asynchronous environment and controller creation is
an input outcome. Pressing the new-tab button only starts that creation, so
`OnCommand` leaves the state alone for it. Its completion is the
`TabCreated` event, handled by `CreateNewTab`.

Three behaviours of this revision are worth stating plainly, and the model
keeps all three:
- The history log keeps duplicates: `History.Record` inserts every URL, even
  one equal to the current head.
- The clear-history identifier (105) has no `WM_COMMAND` case, so pressing
  that button changes nothing.
- The fullscreen flag is taken from any tab's notification, not only the
  active tab's. `ShellProperties.BackgroundFullScreenDesyncs` shows the
  result.

## Model

| member | source | states |
|---|---|---|
| Shell.SwitchToTab | browser/browser.cpp:326-347 | an index out of range changes nothing; otherwise that index becomes active, exactly that tab is visible, every surface is kept, the global fullscreen flag takes that tab's state, and nothing else changes |
| Shell.CloseTab | browser/browser.cpp:353-361 | an index out of range changes nothing; otherwise exactly that tab is removed and the others keep their order; the last tab's removal raises quit and changes nothing else, leaving the active index and fullscreen flag as they were; with tabs left and no active tab (-1) only the removal happens; with tabs left and an active position, the active index becomes min(old, new length - 1) with exactly that tab visible and the fullscreen flag synced to it |
| Shell.CreateNewTab | browser/browser.cpp:279-317 | a failed environment or controller leaves the state unchanged; a success appends one tab titled "New Tab" with a fresh id, keeps the older tabs, makes the new tab the only visible and active one, and clears the fullscreen flag |
| Shell.OnTitleChanged | browser/browser.cpp:311-312 | only the tabs whose surface sent the title get it; every other tab and field is unchanged |
| Shell.OnFullScreenChanged | browser/browser.cpp:290-292 | the global fullscreen flag takes the sender's value whatever tab sent it; only the sender's own state changes besides |
| Shell.OnSourceChanged | browser/browser.cpp:301-303 | the URL becomes the head of the history; from a log of at most 25 the result is the URL followed by the first min(n, 24) old entries; nothing else changes |
| Shell.OnCommand | browser/browser.cpp:237-256 | the close button raises quit; the sidebar and view buttons negate their flag; expand negates its flag and sets the width to 550 when expanded, 260 otherwise; any other identifier, clear-history included, changes nothing |
| Shell.OnLeftButtonDown | browser/browser.cpp:218-229 | a click that misses the strip changes nothing; on a close box it removes exactly that tab and raises quit exactly when it was the only one, leaving the active index and fullscreen flag as they were in that case; with tabs left it clamps the active index to min(old, new length - 1) and, when the old index was a position, shows only that tab with the fullscreen flag synced to it (with -1 only the removal happens); it changes nothing else; on a tab body it makes that tab the active and only visible one, takes its fullscreen state and changes nothing else |
| Shell.Layout | browser/browser.cpp:86-99 | layout exists exactly when the active index names a tab; the surface then gets the whole client area in fullscreen, otherwise the area right of the open sidebar and below the 105 px header |
| ShellProperties.InitValid | browser/browser.cpp:37-46 | the initial globals satisfy every invariant: no tabs, active index -1, quit not raised |
| ShellProperties.CreateKeepsValid | browser/browser.cpp:316-317 | creation keeps the invariants (valid active index with one visible tab, distinct ids, history at most 25, width matching expand) and a new tab leaves the fullscreen flag synced |
| ShellProperties.CloseKeepsValid | browser/browser.cpp:353-361 | closing keeps the invariants |
| ShellProperties.TitleChangeKeepsValid | browser/browser.cpp:312 | a title change keeps the invariants |
| ShellProperties.FullScreenChangeKeepsValid | browser/browser.cpp:292 | a fullscreen change keeps the invariants |
| ShellProperties.ClickKeepsValid | browser/browser.cpp:220-229 | a tab-strip click keeps the invariants |
| ShellProperties.StepKeepsValid | browser/browser.cpp:158-273 | every event the shell reacts to keeps the invariants |
| ShellProperties.RunKeepsValid | browser/browser.cpp:150-154 | every sequence of events from a valid state ends in a valid state |
| ShellProperties.StepKeepsSynced | browser/browser.cpp:336-338 | every event except a fullscreen change of a non-active surface keeps the global flag equal to the active tab's state |
| ShellProperties.BackgroundFullScreenDesyncs | browser/browser.cpp:288-292 | a background tab's fullscreen change flips the global flag and leaves it out of step with the active tab |
| ShellProperties.SwitchToActiveIsNoOp | browser/browser.cpp:326-347 | in a valid, synced state re-activating the active tab changes nothing |
| ShellProperties.CloseBeforeActiveShiftsIdentity | browser/browser.cpp:356-360 | closing a tab left of a non-last active tab keeps the active position, so a different tab (the right neighbour) becomes active |
| ShellProperties.CloseAfterActiveKeepsIdentity | browser/browser.cpp:356-360 | closing a tab right of the active one keeps the same tab active at the same index |
| ShellProperties.CloseBeforeLastActiveKeepsIdentity | browser/browser.cpp:359-360 | closing a tab left of an active last tab clamps the index and keeps the same tab active |
| ShellProperties.StaleTitleChangeIgnored | browser/browser.cpp:312 | a title from a surface with no tab changes nothing |
| ShellProperties.ToggleCommandsAreInvolutions | browser/browser.cpp:242-254 | the sidebar, view and expand commands each undo themselves |
| ShellProperties.ContentBoundsFollowSidebar | browser/browser.cpp:92-99 | with any tab, the surface starts at x = 0 with the sidebar closed, at 260 open and compact, at 550 open and expanded; in fullscreen it covers the client area |
| ShellProperties.CreateThreeTabs | browser/browser.cpp:316-317 | three successful creations give three tabs with the third active and visible |
| ShellProperties.FailedCreationLeavesNoTab | browser/browser.cpp:279-282 | failed creations leave the initial state |
| ShellProperties.CloseOnlyTabQuits | browser/browser.cpp:357 | closing the only tab empties the registry and raises quit |
| History.Record | browser/browser.cpp:302-303 | the URL is the new head; from a log of at most 25 the log stays at most 25 and equals the URL followed by the first min(n, 24) old entries |
| History.RecordKeepsDuplicates | browser/browser.cpp:302-303 | recording the same URL twice leaves two copies at the head |
| History.RecordAllKeepsMostRecent | browser/browser.cpp:302-303 | any series of visits leaves the 25 most recent entries of (visits newest first, then the old log) |
| Geometry.PlaceControls | browser/browser.cpp:92-106 | fullscreen content covers exactly the client area; windowed content starts at the sidebar edge below the header; the three 45x30 window buttons are one gap-free row ending at the right edge; the edit is at most 600 wide, leaves at least 450 px and is centred to within one pixel |
| Geometry.TabGeometry | browser/browser.cpp:200-212 | tab i starts at 10 + 185 i and is 180 by 32; its close box is its last 30 px and its title fills the rest after a 5 px inset |
| Geometry.PaintTabStrip | browser/browser.cpp:199-214 | the running-offset painting loop yields tab i's closed-form rectangles for every i and leaves the offset where the new-tab button goes |
| Geometry.PaintChrome | browser/browser.cpp:169-214 | nothing is painted in fullscreen; otherwise the header spans the width, the sidebar exists exactly when open, and there is one tab rectangle set per tab followed by the new-tab button |
| Geometry.TabsOrderedAndDisjoint | browser/browser.cpp:200-212 | tabs run left to right separated by at least 5 px, exactly 5 px between neighbours |
| Geometry.NewTabButtonFollowsLastTab | browser/browser.cpp:212-214 | the new-tab button starts 5 px after the last tab |
| Geometry.WindowedRegionsPartitionClient | browser/browser.cpp:173-180 | in windowed mode every client point lies in exactly one of header, open sidebar and content surface |
| HitTest.TabAt | browser/browser.cpp:220-229 | a click hits nothing exactly when it is outside rows 65..97 or outside every tab's [10 + 185 i, 190 + 185 i]; a hit names that unique tab and means close exactly from 160 + 185 i on |
| HitTest.ScanTabStrip | browser/browser.cpp:220-229 | the handler's left-to-right scan returns the closed-form hit for every point and tab count |
| HitTest.NcHitTest | browser/browser.cpp:260-266 | in fullscreen every point is client; otherwise client exactly for y < 60 or 65 <= y <= 100, caption exactly for 60 <= y < 65 or 100 < y < 105, default from y = 105 down |
| HitTest.ButtonRuleIsSubsumed | browser/browser.cpp:262-263 | removing the window-button rule changes no classification |
| HitTest.TabStripIsClient | browser/browser.cpp:263-264 | every point that hits a tab is a client point |
| HitTest.WindowButtonsAreClient | browser/browser.cpp:102-104 | every point of the placed window buttons is a client point |
| Address.FindFrom | browser/browser.cpp:124 | returns the first index at or after k where the pattern occurs, or none exactly when it occurs nowhere from k on |
| Address.PrefixedHasScheme | browser/browser.cpp:124 | the search prefix makes any text contain "://" |
| Address.BufferedText | browser/browser.cpp:122 | the text read is exactly the first min(n, 2047) characters of the edit's text (counted as Unicode characters, see Left out), so all of it when shorter |
| Address.NormalizeUrl | browser/browser.cpp:124 | the result always contains "://"; text containing it is kept, other text gets the search prefix; the text is always a suffix of the result |
| Address.NormalizeIdempotent | browser/browser.cpp:124 | normalising twice equals normalising once |
| AddressBar.OnEnterAsWritten | browser/browser.cpp:121-125 | as written, the handler reads past the tab vector exactly when the active index is not below the tab count, and otherwise navigates the active tab to the normalised buffered text exactly when the index is a position |
| AddressBar.OnEnter | browser/browser.cpp:121-125 | with the bounds check, Enter navigates exactly when the active index names a tab; the request goes to that tab, and its URL is the normalised buffered text, so it contains "://" and is at most prefix + 2047 long |
| AddressBar.AsWrittenAgreesBeforeQuit | browser/browser.cpp:125 | in every valid state before quit is posted the written guard behaves like the bounds-checked one |
| AddressBar.EnterAfterClosingLastTabOverruns | browser/browser.cpp:125 | after creating and closing one tab, quit is posted, there are no tabs, the active index is 0, and an Enter reads past the vector |

## Left out

- WebView2/COM plumbing is not modelled. This covers environment and controller creation, `get_CoreWebView2`, `put_Bounds`, `put_IsVisible`, `Navigate`, `Close` and `get_Source`. Creation is an input outcome. Bounds and visibility are the values the model computes. Navigation is the `Navigate` request of `AddressBar.OnEnter`.
- The home-page navigation after creation is not modelled. It comes back to the shell as an ordinary `SourceChanged` event.
- GDI painting is not modelled: brushes, colours, fonts, text drawing and the history-row drawing loop. These are presentation only. The rectangles they fill are modelled.
- `MoveWindow`, `ShowWindow` and `ToggleUIElements` are not modelled. Their rectangles are the output of `Geometry.PlaceControls`.
- Minimise, maximise and `IsZoomed` are left out. They act on the OS window and not on shell state.
- The Win32 message loop and `WinMain` window and control creation are not modelled. `PostQuitMessage` is the `quit` flag. The first `CreateNewTab` is the first `TabCreated` event.
- `WM_SIZE` re-runs layout only. `Shell.Layout` is a function of the state and the client size, so resizing has no transition.
- `LOWORD`, `HIWORD` and `ScreenToClient` coordinate decoding are left out. Points are given as client coordinates.
- `EditProc` focus and placeholder handling and `SyncAddressBar` are not modelled. They only set the edit control's text.
- Callback threading is not modelled. Every handler runs on the UI thread, so there is no concurrency.
- Address.BufferedText: the 2047 limit is counted in Unicode characters, not in UTF-16 code units as the source's `wchar_t` buffer counts it. A text with characters outside the Basic Multilingual Plane is therefore cut later by the model than by the source, which keeps at most 1023 such characters and can split a surrogate pair. Dafny strings hold whole Unicode scalar values and cannot represent half a pair.
- `Shell.Step` and `Shell.Run` carry no contract of their own. Their properties are the `ShellProperties` lemmas.

## Findings

| source | as written | input that shows it | evidently intended | confidence | as-written member | corrected member |
|---|---|---|---|---|---|---|
| browser/browser.cpp:125 | the Enter handler reads `tabs[activeTabIndex]` after checking only `activeTabIndex != -1` | create one tab, close it: quit is posted, no tab is left and `activeTabIndex` stays 0; an Enter still queued before `WM_QUIT` then indexes an empty vector | also check `activeTabIndex < tabs.size()`, as `SyncAddressBar` does at line 64 | low; not executed | AddressBar.OnEnterAsWritten, shown by AddressBar.EnterAfterClosingLastTabOverruns | AddressBar.OnEnter |

=== FILE: address.dfy ===
/**
 * Address-bar submission: the text read from the edit control (at most 2047
 * characters fit the 2048-character buffer) is navigated to as is when it
 * contains "://", and otherwise becomes a search query.
 */
module Address {
  import opened Wrappers

  const SCHEME_SEPARATOR := "://"
  const SEARCH_PREFIX := "https://www.google.com/search?q="
  const ADDRESS_BUFFER_SIZE := 2048

  predicate OccursAt(s: string, pat: string, i: int)
  {
    0 <= i && i + |pat| <= |s| && s[i..i + |pat|] == pat
  }

  /** The first occurrence of pat in s at or after k, like `std::wstring::find`. */
  function FindFrom(s: string, pat: string, k: nat): (r: Option<nat>)
    ensures r.Some? ==> k <= r.value && OccursAt(s, pat, r.value)
    ensures r.Some? ==> forall j :: k <= j < r.value ==> !OccursAt(s, pat, j)
    ensures r.None? ==> forall j :: k <= j ==> !OccursAt(s, pat, j)
    decreases |s| - k
  {
    if k + |pat| > |s| then None
    else if s[k..k + |pat|] == pat then Some(k)
    else FindFrom(s, pat, k + 1)
  }

  predicate HasScheme(s: string)
  {
    FindFrom(s, SCHEME_SEPARATOR, 0).Some?
  }

  /** The search prefix itself carries a scheme separator, at index 5. */
  lemma PrefixedHasScheme(t: string)
    ensures OccursAt(SEARCH_PREFIX + t, SCHEME_SEPARATOR, 5)
    ensures HasScheme(SEARCH_PREFIX + t)
  {
    var s := SEARCH_PREFIX + t;
    assert s[5] == ':' && s[6] == '/' && s[7] == '/';
    assert s[5..8] == SCHEME_SEPARATOR;
    assert OccursAt(s, SCHEME_SEPARATOR, 5);
    var r := FindFrom(s, SCHEME_SEPARATOR, 0);
    assert r.Some? by {
      if r.None? {
        assert false;
      }
    }
  }

  /** What `GetWindowText(hWnd, url, 2048)` reads: at most 2047 characters. */
  function BufferedText(text: string): (r: string)
    ensures |r| <= ADDRESS_BUFFER_SIZE - 1
    ensures |r| == Min(|text|, ADDRESS_BUFFER_SIZE - 1)
    ensures r <= text
    ensures |text| < ADDRESS_BUFFER_SIZE ==> r == text
  {
    text[..Min(|text|, ADDRESS_BUFFER_SIZE - 1)]
  }

  /** Text without "://" becomes a search URL; anything else is kept. */
  function NormalizeUrl(text: string): (r: string)
    ensures HasScheme(r)
    ensures (exists i :: OccursAt(text, SCHEME_SEPARATOR, i)) ==> r == text
    ensures !(exists i :: OccursAt(text, SCHEME_SEPARATOR, i)) ==> r == SEARCH_PREFIX + text
    ensures |text| <= |r| && r[|r| - |text|..] == text
  {
    if FindFrom(text, SCHEME_SEPARATOR, 0).None? then
      PrefixedHasScheme(text);
      SEARCH_PREFIX + text
    else
      text
  }

  /** Normalising twice is normalising once. */
  lemma NormalizeIdempotent(text: string)
    ensures NormalizeUrl(NormalizeUrl(text)) == NormalizeUrl(text)
  {
  }
}

=== FILE: address_bar.dfy ===
/**
 * Enter in the address bar: the buffered text is normalised and the active
 * tab is asked to navigate to it. The request leaves the shell state alone;
 * the navigation comes back later as a SourceChanged notification.
 */
module AddressBar {
  import opened Shell
  import Address
  import ShellProperties

  datatype EnterOutcome =
    | Navigate(tab: nat, url: string)
    | Ignored
    | IndexOutOfRange(index: int)   // `tabs[activeTabIndex]` read past the end of the vector

  /**
   * The handler as the source writes it: it guards only against
   * `activeTabIndex == -1` before reading `tabs[activeTabIndex]`.
   */
  function OnEnterAsWritten(s: ShellState, text: string): (r: EnterOutcome)
    ensures r.IndexOutOfRange? <==> s.activeTabIndex >= |s.tabs|
    ensures r.Navigate? <==> 0 <= s.activeTabIndex < |s.tabs|
    ensures r.Navigate? ==>
      && r.tab == s.activeTabIndex
      && r.url == Address.NormalizeUrl(Address.BufferedText(text))
  {
    if s.activeTabIndex != -1 then
      if s.activeTabIndex < |s.tabs| then
        Navigate(s.activeTabIndex, Address.NormalizeUrl(Address.BufferedText(text)))
      else
        IndexOutOfRange(s.activeTabIndex)
    else
      Ignored
  }

  /**
   * The handler with the bounds check SyncAddressBar already makes: only an
   * active index naming a tab navigates, always to a URL with a scheme.
   */
  function OnEnter(s: ShellState, text: string): (r: EnterOutcome)
    ensures !r.IndexOutOfRange?
    ensures r.Navigate? <==> 0 <= s.activeTabIndex < |s.tabs|
    ensures r.Navigate? ==>
      && r.tab == s.activeTabIndex
      && r.url == Address.NormalizeUrl(Address.BufferedText(text))
      && Address.HasScheme(r.url)
      && |r.url| <= |Address.SEARCH_PREFIX| + Address.ADDRESS_BUFFER_SIZE - 1
  {
    if 0 <= s.activeTabIndex < |s.tabs| then
      Navigate(s.activeTabIndex, Address.NormalizeUrl(Address.BufferedText(text)))
    else
      Ignored
  }

  /** The two agree on every valid state before quit has been posted. */
  lemma AsWrittenAgreesBeforeQuit(s: ShellState, text: string)
    requires ShellProperties.Valid(s) && !s.quit
    ensures OnEnterAsWritten(s, text) == OnEnter(s, text)
  {
  }

  /**
   * Create one tab and close it: the shell has posted quit but the active
   * index is still 0 with no tabs, so an Enter still queued reads past the
   * end of the tab vector in the handler as written.
   */
  lemma EnterAfterClosingLastTabOverruns(text: string)
    ensures var s := CloseTab(CreateNewTab(Init(), Created), 0);
            && s.quit && s.tabs == [] && s.activeTabIndex == 0
            && OnEnterAsWritten(s, text) == IndexOutOfRange(0)
            && OnEnter(s, text) == Ignored
  {
  }
}

=== FILE: geometry.dfy ===
/**
 * Pure integer geometry of the frameless browser window: the bounds given to
 * the active content surface and the window controls (browser/browser.cpp,
 * UpdateLayout), and the header, sidebar and tab-strip rectangles painted by
 * the WM_PAINT handler. Coordinates are client coordinates; a client rectangle
 * is `{0, 0, right, bottom}`.
 */
module Geometry {
  import opened Wrappers

  const HEADER_TOTAL_HEIGHT := 105
  const SIDEBAR_MIN_WIDTH := 260
  const SIDEBAR_MAX_WIDTH := 550
  const TAB_WIDTH := 180
  const TAB_CLOSE_WIDTH := 30
  const TAB_GAP := 5
  const TAB_STRIP_LEFT := 10
  const TAB_STRIP_TOP := 65
  const TAB_HEIGHT := 32
  const TAB_TEXT_INSET := 5
  const WIN_BUTTON_WIDTH := 45
  const WIN_BUTTON_HEIGHT := 30
  const EDIT_MARGIN := 450
  const EDIT_MAX_WIDTH := 600
  const EDIT_TOP := 15
  const EDIT_HEIGHT := 30
  const NEW_TAB_TOP := 67
  const NEW_TAB_SIZE := 28

  /** A Win32 RECT: left and top inclusive, right and bottom exclusive. */
  datatype Rect = Rect(left: int, top: int, right: int, bottom: int) {
    predicate Contains(x: int, y: int) {
      left <= x < right && top <= y < bottom
    }
    function Width(): int { right - left }
    function Height(): int { bottom - top }
  }

  /** The rectangle a `MoveWindow(x, y, w, h)` call gives a child control. */
  function Placed(x: int, y: int, w: int, h: int): Rect
  {
    Rect(x, y, x + w, y + h)
  }

  /** Where UpdateLayout puts the active surface and the header controls. */
  datatype Placement =
    | FullScreenPlacement(content: Rect)
    | WindowedPlacement(content: Rect, closeButton: Rect, maxButton: Rect,
                        minButton: Rect, addressEdit: Rect)

  /** Left edge of the content surface: the sidebar width when it is open. */
  function ContentLeft(sidebarOpen: bool, sidebarWidth: int): int
  {
    if sidebarOpen then sidebarWidth else 0
  }

  /** `min(rc.right - 450, 600)`; negative on a window narrower than 450. */
  function EditWidth(right: int): int
  {
    Min(right - EDIT_MARGIN, EDIT_MAX_WIDTH)
  }

  /**
   * The rectangle arithmetic of UpdateLayout. The centring division
   * `(rc.right - editW) / 2` truncates in C++; its dividend is at least 450,
   * so Dafny's division agrees with it.
   */
  function PlaceControls(fullScreen: bool, sidebarOpen: bool, sidebarWidth: int,
                         right: int, bottom: int): (p: Placement)
    ensures p.FullScreenPlacement? <==> fullScreen
    ensures fullScreen ==>
      forall x, y :: p.content.Contains(x, y) <==> 0 <= x < right && 0 <= y < bottom
    ensures !fullScreen ==>
      && p.content.top == HEADER_TOTAL_HEIGHT
      && p.content.left == ContentLeft(sidebarOpen, sidebarWidth)
      && p.content.right == right && p.content.bottom == bottom
    // the three window buttons form one right-aligned, gap-free row
    ensures p.WindowedPlacement? ==>
      && p.closeButton.right == right
      && p.maxButton.right == p.closeButton.left
      && p.minButton.right == p.maxButton.left
      && p.minButton.left == right - 3 * WIN_BUTTON_WIDTH
      && p.closeButton.Width() == p.maxButton.Width() == p.minButton.Width() == WIN_BUTTON_WIDTH
      && p.closeButton.top == p.maxButton.top == p.minButton.top == 0
      && p.closeButton.bottom == p.maxButton.bottom == p.minButton.bottom == WIN_BUTTON_HEIGHT
    // the address edit is at most 600 wide, leaves at least 450 px and is centred
    ensures p.WindowedPlacement? ==>
      && p.addressEdit.Width() <= EDIT_MAX_WIDTH
      && right - p.addressEdit.Width() >= EDIT_MARGIN
      && (p.addressEdit.Width() == EDIT_MAX_WIDTH || right - p.addressEdit.Width() == EDIT_MARGIN)
      && 0 <= (right - p.addressEdit.right) - p.addressEdit.left <= 1
      && p.addressEdit.top == EDIT_TOP && p.addressEdit.Height() == EDIT_HEIGHT
  {
    if fullScreen then
      FullScreenPlacement(Rect(0, 0, right, bottom))
    else
      var xOff := ContentLeft(sidebarOpen, sidebarWidth);
      var editW := EditWidth(right);
      WindowedPlacement(
        Rect(xOff, HEADER_TOTAL_HEIGHT, right, bottom),
        Placed(right - 45, 0, WIN_BUTTON_WIDTH, WIN_BUTTON_HEIGHT),
        Placed(right - 90, 0, WIN_BUTTON_WIDTH, WIN_BUTTON_HEIGHT),
        Placed(right - 135, 0, WIN_BUTTON_WIDTH, WIN_BUTTON_HEIGHT),
        Placed((right - editW) / 2, EDIT_TOP, editW, EDIT_HEIGHT))
  }

  /** One painted tab: its body, its title area and its trailing close box. */
  datatype TabRects = TabRects(body: Rect, text: Rect, close: Rect)

  /** Left edge of tab i: tabs start at 10 and repeat every TAB_WIDTH + 5 px. */
  function TabLeft(i: nat): int
  {
    TAB_STRIP_LEFT + i * (TAB_WIDTH + TAB_GAP)
  }

  /** Closed form of the i-th tab's rectangles. */
  function TabGeometry(i: nat): (g: TabRects)
    ensures g.body.left == TabLeft(i) == TAB_STRIP_LEFT + i * (TAB_WIDTH + TAB_GAP)
    ensures g.body.top == TAB_STRIP_TOP && g.body.Height() == TAB_HEIGHT
    ensures g.body.Width() == TAB_WIDTH
    // the close box is the last 30 px of the body; the title fills the rest after a 5 px inset
    ensures g.close.right == g.body.right && g.close.Width() == TAB_CLOSE_WIDTH
    ensures g.text.left == g.body.left + TAB_TEXT_INSET && g.text.right == g.close.left
    ensures g.close.top == g.text.top == g.body.top && g.close.bottom == g.text.bottom == g.body.bottom
  {
    var left := TabLeft(i);
    var body := Rect(left, TAB_STRIP_TOP, left + TAB_WIDTH, TAB_STRIP_TOP + TAB_HEIGHT);
    TabRects(body,
             Rect(body.left + TAB_TEXT_INSET, body.top, body.right - TAB_CLOSE_WIDTH, body.bottom),
             Rect(body.right - TAB_CLOSE_WIDTH, body.top, body.right, body.bottom))
  }

  /** Left edge of the new-tab button for a strip of n tabs: where tab n would start. */
  function NewTabLeft(n: nat): int
  {
    TabLeft(n)
  }

  /**
   * The painting loop of the tab strip: `tx` starts at 10 and advances by
   * TAB_WIDTH + 5 per tab; after the loop it is where the new-tab button goes.
   */
  method PaintTabStrip(n: nat) returns (strip: seq<TabRects>, newTabX: int)
    ensures |strip| == n
    ensures forall i :: 0 <= i < n ==> strip[i] == TabGeometry(i)
    ensures newTabX == NewTabLeft(n)
  {
    strip := [];
    var tx := TAB_STRIP_LEFT;
    var i := 0;
    while i < n
      invariant 0 <= i <= n
      invariant |strip| == i
      invariant tx == TabLeft(i)
      invariant forall j :: 0 <= j < i ==> strip[j] == TabGeometry(j)
    {
      var body := Rect(tx, TAB_STRIP_TOP, tx + TAB_WIDTH, TAB_STRIP_TOP + TAB_HEIGHT);
      var text := Rect(body.left + TAB_TEXT_INSET, body.top, body.right - TAB_CLOSE_WIDTH, body.bottom);
      var close := Rect(body.right - TAB_CLOSE_WIDTH, body.top, body.right, body.bottom);
      strip := strip + [TabRects(body, text, close)];
      tx := tx + TAB_WIDTH + TAB_GAP;
      i := i + 1;
    }
    newTabX := tx;
  }

  /** Everything WM_PAINT lays out; nothing is painted in fullscreen. */
  datatype Chrome = Chrome(header: Rect, sidebar: Option<Rect>, tabStrip: seq<TabRects>, newTabButton: Rect)

  function PaintChrome(fullScreen: bool, sidebarOpen: bool, sidebarWidth: int,
                       tabCount: nat, right: int, bottom: int): (c: Option<Chrome>)
    ensures c.None? <==> fullScreen
    ensures c.Some? ==>
      && c.value.header == Rect(0, 0, right, HEADER_TOTAL_HEIGHT)
      && (c.value.sidebar.Some? <==> sidebarOpen)
      && (sidebarOpen ==> c.value.sidebar.value == Rect(0, HEADER_TOTAL_HEIGHT, sidebarWidth, bottom))
      && |c.value.tabStrip| == tabCount
      && (forall i :: 0 <= i < tabCount ==> c.value.tabStrip[i] == TabGeometry(i))
      && c.value.newTabButton.left == NewTabLeft(tabCount)
  {
    if fullScreen then None
    else
      Some(Chrome(
        Rect(0, 0, right, HEADER_TOTAL_HEIGHT),
        if sidebarOpen then Some(Rect(0, HEADER_TOTAL_HEIGHT, sidebarWidth, bottom)) else None,
        seq(tabCount, i requires 0 <= i => TabGeometry(i)),
        Placed(NewTabLeft(tabCount), NEW_TAB_TOP, NEW_TAB_SIZE, NEW_TAB_SIZE)))
  }

  /** Tabs are laid out left to right, 5 px apart, never overlapping. */
  lemma TabsOrderedAndDisjoint(i: nat, j: nat)
    requires i < j
    ensures TabGeometry(i).body.right + TAB_GAP <= TabGeometry(j).body.left
    ensures TabGeometry(i).body.right + TAB_GAP == TabGeometry(j).body.left <==> j == i + 1
  {
  }

  /** The new-tab button sits 5 px after the last tab of the strip. */
  lemma NewTabButtonFollowsLastTab(n: nat)
    requires n > 0
    ensures NewTabLeft(n) == TabGeometry(n - 1).body.right + TAB_GAP
  {
  }

  /**
   * In windowed mode the header, the sidebar (when open) and the content
   * surface partition the client area: every client point lies in exactly one.
   */
  lemma WindowedRegionsPartitionClient(sidebarOpen: bool, sidebarWidth: int, tabCount: nat,
                                       right: int, bottom: int, x: int, y: int)
    requires 0 <= x < right && 0 <= y < bottom
    requires sidebarWidth >= 0
    ensures var c := PaintChrome(false, sidebarOpen, sidebarWidth, tabCount, right, bottom).value;
            var p := PlaceControls(false, sidebarOpen, sidebarWidth, right, bottom);
            var inSidebar := c.sidebar.Some? && c.sidebar.value.Contains(x, y);
            (if c.header.Contains(x, y) then 1 else 0)
            + (if inSidebar then 1 else 0)
            + (if p.content.Contains(x, y) then 1 else 0) == 1
  {
  }
}

=== FILE: history.dfy ===
/**
 * The navigation history log: every source change of any tab inserts the new
 * URL at the head and, when the log has grown past 25 entries, drops the last
 * one. This revision keeps duplicates.
 */
module History {
  import opened Wrappers

  const HISTORY_CAPACITY := 25

  /** The first min(|s|, k) elements of s. */
  function Take<T>(s: seq<T>, k: nat): (r: seq<T>)
    ensures |r| == Min(|s|, k)
  {
    s[..Min(|s|, k)]
  }

  /** Insert at the head, then one `pop_back` when the log exceeds capacity. */
  function Record(h: seq<string>, url: string): (r: seq<string>)
    ensures |r| > 0 && r[0] == url
    ensures |h| <= HISTORY_CAPACITY ==> |r| <= HISTORY_CAPACITY
    ensures |h| <= HISTORY_CAPACITY ==> r == [url] + h[..Min(|h|, HISTORY_CAPACITY - 1)]
  {
    var grown := [url] + h;
    if |grown| > HISTORY_CAPACITY then grown[..|grown| - 1] else grown
  }

  /** Recording the same URL twice keeps both copies at the head. */
  lemma RecordKeepsDuplicates(h: seq<string>, url: string)
    requires |h| <= HISTORY_CAPACITY
    ensures var r := Record(Record(h, url), url);
            |r| >= 2 && r[0] == url && r[1] == url
  {
  }

  /** Record a sequence of source changes, oldest first. */
  function RecordAll(h: seq<string>, urls: seq<string>): seq<string>
    decreases |urls|
  {
    if urls == [] then h else RecordAll(Record(h, urls[0]), urls[1..])
  }

  function Reverse<T>(s: seq<T>): (r: seq<T>)
    ensures |r| == |s|
  {
    if s == [] then [] else Reverse(s[1..]) + [s[0]]
  }

  lemma TakeOfAppendTake<T>(a: seq<T>, b: seq<T>, k: nat)
    ensures Take(a + Take(b, k), k) == Take(a + b, k)
  {
  }

  /** One record is the head insertion truncated to capacity. */
  lemma RecordIsTake(h: seq<string>, url: string)
    requires |h| <= HISTORY_CAPACITY
    ensures Record(h, url) == Take([url] + h, HISTORY_CAPACITY)
  {
  }

  /**
   * From any log within capacity, recording urls leaves the 25 most recent
   * visits, newest first, followed by what is left of the old log.
   */
  lemma {:induction false} RecordAllKeepsMostRecent(h: seq<string>, urls: seq<string>)
    requires |h| <= HISTORY_CAPACITY
    ensures RecordAll(h, urls) == Take(Reverse(urls) + h, HISTORY_CAPACITY)
    ensures |RecordAll(h, urls)| <= HISTORY_CAPACITY
    decreases |urls|
  {
    if urls == [] {
      assert Reverse(urls) + h == h;
    } else {
      var u, rest := urls[0], urls[1..];
      var h' := Record(h, u);
      RecordAllKeepsMostRecent(h', rest);
      RecordIsTake(h, u);
      TakeOfAppendTake(Reverse(rest), [u] + h, HISTORY_CAPACITY);
      assert Reverse(rest) + ([u] + h) == Reverse(urls) + h;
    }
  }
}

=== FILE: hit_test.dfy ===
/**
 * Pure hit testing of a window point: which tab a left click in the tab strip
 * lands on (WM_LBUTTONDOWN), and how the frameless window classifies a point
 * for the system (WM_NCHITTEST).
 */
module HitTest {
  import opened Geometry

  /** Outcome of a click in the tab strip. */
  datatype TabHit = Miss | SwitchTo(index: nat) | CloseAt(index: nat)

  /** The click handler's rows 65..97, both ends included. */
  predicate InTabRow(y: int)
  {
    TAB_STRIP_TOP <= y <= TAB_STRIP_TOP + TAB_HEIGHT
  }

  /** The click handler's test `x >= tx && x <= tx + TAB_WIDTH` for tab i. */
  predicate InTabColumn(x: int, i: nat)
  {
    TabLeft(i) <= x <= TabLeft(i) + TAB_WIDTH
  }

  /** Left edge of tab i's close box, `tx + TAB_WIDTH - TAB_CLOSE_WIDTH`. */
  function CloseLeft(i: nat): int
  {
    TabLeft(i) + TAB_WIDTH - TAB_CLOSE_WIDTH
  }

  /** A column of the strip determines its tab index by division. */
  lemma ColumnIndex(x: int)
    ensures forall i: nat :: InTabColumn(x, i) ==>
      x >= TAB_STRIP_LEFT && (x - TAB_STRIP_LEFT) / (TAB_WIDTH + TAB_GAP) == i
      && (x - TAB_STRIP_LEFT) % (TAB_WIDTH + TAB_GAP) <= TAB_WIDTH
  {
  }

  /**
   * Closed form of the tab-strip hit test: a click in rows 65..97 hits tab
   * i when it lies in `[10 + 185i, 190 + 185i]`, and means "close" on the
   * last 30 px; the 5 px gaps and everything past the last tab hit nothing.
   */
  function TabAt(x: int, y: int, n: nat): (h: TabHit)
    ensures h.Miss? <==> !(InTabRow(y) && exists i: nat :: i < n && InTabColumn(x, i))
    ensures h.SwitchTo? ==>
      h.index < n && InTabRow(y) && InTabColumn(x, h.index) && x < CloseLeft(h.index)
    ensures h.CloseAt? ==>
      h.index < n && InTabRow(y) && InTabColumn(x, h.index) && CloseLeft(h.index) <= x
  {
    ColumnIndex(x);
    if InTabRow(y) && x >= TAB_STRIP_LEFT
       && (x - TAB_STRIP_LEFT) / (TAB_WIDTH + TAB_GAP) < n
       && (x - TAB_STRIP_LEFT) % (TAB_WIDTH + TAB_GAP) <= TAB_WIDTH
    then
      var i := (x - TAB_STRIP_LEFT) / (TAB_WIDTH + TAB_GAP);
      assert InTabColumn(x, i);
      if x >= CloseLeft(i) then CloseAt(i) else SwitchTo(i)
    else
      Miss
  }

  /** At most one tab column contains a given x. */
  lemma ColumnsDisjoint(x: int, i: nat, j: nat)
    requires InTabColumn(x, i) && InTabColumn(x, j)
    ensures i == j
  {
  }

  /**
   * The click handler's loop as written: walk the tabs left to right with a
   * running `tx` and stop at the first column that contains x.
   */
  method ScanTabStrip(x: int, y: int, n: nat) returns (h: TabHit)
    ensures h == TabAt(x, y, n)
  {
    h := Miss;
    if TAB_STRIP_TOP <= y && y <= TAB_STRIP_TOP + TAB_HEIGHT {
      var tx := TAB_STRIP_LEFT;
      var i := 0;
      while i < n
        invariant 0 <= i <= n
        invariant tx == TabLeft(i)
        invariant forall j: nat :: j < i ==> !InTabColumn(x, j)
      {
        if x >= tx && x <= tx + TAB_WIDTH {
          if x >= tx + TAB_WIDTH - TAB_CLOSE_WIDTH {
            h := CloseAt(i);
          } else {
            h := SwitchTo(i);
          }
          ColumnsDisjoint(x, i, TabAt(x, y, n).index);
          return;
        }
        tx := tx + TAB_WIDTH + TAB_GAP;
        i := i + 1;
      }
    }
  }

  /** The answer to WM_NCHITTEST. */
  datatype NcZone = Client | Caption | Default

  /**
   * WM_NCHITTEST of the frameless window, rule by rule. The window-button
   * rule (`y < 32` near the right edge) is shadowed by the `y < 60` rule.
   */
  function NcHitTest(fullScreen: bool, x: int, y: int, right: int): (z: NcZone)
    ensures fullScreen ==> z == Client
    ensures !fullScreen ==> (z == Client <==> y < 60 || 65 <= y <= 100)
    ensures !fullScreen ==> (z == Caption <==> 60 <= y < 65 || 100 < y < HEADER_TOTAL_HEIGHT)
    ensures !fullScreen ==> (z == Default <==> HEADER_TOTAL_HEIGHT <= y)
  {
    if fullScreen then Client
    else if y < 32 && x > right - 140 then Client
    else if y < 60 then Client
    else if y >= 65 && y <= 100 then Client
    else if y < HEADER_TOTAL_HEIGHT then Caption
    else Default
  }

  /** Without the window-button rule the classification is the same. */
  function NcHitTestWithoutButtonRule(fullScreen: bool, y: int): NcZone
  {
    if fullScreen then Client
    else if y < 60 then Client
    else if y >= 65 && y <= 100 then Client
    else if y < HEADER_TOTAL_HEIGHT then Caption
    else Default
  }

  lemma ButtonRuleIsSubsumed(fullScreen: bool, x: int, y: int, right: int)
    ensures NcHitTest(fullScreen, x, y, right) == NcHitTestWithoutButtonRule(fullScreen, y)
  {
  }

  /** Every point of a tab the click handler can hit reaches it as a client click. */
  lemma TabStripIsClient(fullScreen: bool, x: int, y: int, right: int, n: nat)
    requires !TabAt(x, y, n).Miss?
    ensures NcHitTest(fullScreen, x, y, right) == Client
  {
  }

  /** The window buttons placed by the layout lie in client area. */
  lemma WindowButtonsAreClient(sidebarOpen: bool, sidebarWidth: int, right: int, bottom: int,
                               x: int, y: int)
    requires var p := PlaceControls(false, sidebarOpen, sidebarWidth, right, bottom);
             p.closeButton.Contains(x, y) || p.maxButton.Contains(x, y) || p.minButton.Contains(x, y)
    ensures NcHitTest(false, x, y, right) == Client
  {
  }
}

=== FILE: shell.dfy ===
/**
 * The shell state machine of the browser window (browser/browser.cpp): the
 * tab registry with its active index, the history log, the sidebar and view
 * flags, the fullscreen flag and the quit signal, with one pure transition per
 * command, click and content-surface notification.
 *
 * A surface's identity is its `id`, allocated from `nextId` when the tab is
 * created. A surface's "contains a fullscreen element" query is stored in the
 * tab as `wantsFullScreen`, and whether its controller is shown as `visible`.
 */
module Shell {
  import opened Wrappers
  import Geometry
  import HitTest
  import History

  const NEW_TAB_TITLE := "New Tab"

  // the WM_COMMAND identifiers that change shell state; every other one is a no-op here
  const IDC_SIDEBAR_BTN := 102
  const IDC_TOGGLE_VIEW_BTN := 106
  const IDC_EXPAND_SIDEBAR := 107
  const IDC_WIN_CLOSE := 109

  /** The active-tab index: a position, or -1 for none; the source never stores less. */
  type ActiveIndex = i: int | -1 <= i witness -1

  datatype Tab = Tab(id: nat, title: string, wantsFullScreen: bool, visible: bool)

  datatype ShellState = ShellState(
    tabs: seq<Tab>,
    activeTabIndex: ActiveIndex,
    historyList: seq<string>,     // most recent first
    isSidebarOpen: bool,
    isExtrasView: bool,
    isExpanded: bool,
    isVideoFullScreen: bool,
    currentSidebarWidth: int,
    quit: bool,                   // PostQuitMessage has been called
    nextId: nat)

  /** The globals' initial values, before the first tab exists. */
  function Init(): ShellState
  {
    ShellState([], -1, [], true, false, false, false, Geometry.SIDEBAR_MIN_WIDTH, false, 0)
  }

  /** Same surfaces in the same order; only controller visibility may differ. */
  predicate SameSurfaces(a: seq<Tab>, b: seq<Tab>)
  {
    && |a| == |b|
    && forall i :: 0 <= i < |a| ==>
         a[i].id == b[i].id && a[i].title == b[i].title && a[i].wantsFullScreen == b[i].wantsFullScreen
  }

  /** The tab at k is shown and every other tab is hidden. */
  predicate VisibleExactly(tabs: seq<Tab>, k: int)
  {
    forall i :: 0 <= i < |tabs| ==> (tabs[i].visible <==> i == k)
  }

  function Remove<T>(s: seq<T>, i: nat): seq<T>
    requires i < |s|
  {
    s[..i] + s[i + 1..]
  }

  /** Show the tab at index and hide the others, keeping every surface. */
  function ShowOnly(tabs: seq<Tab>, index: int): (r: seq<Tab>)
    ensures SameSurfaces(tabs, r) && VisibleExactly(r, index)
  {
    seq(|tabs|, i requires 0 <= i < |tabs| => tabs[i].(visible := i == index))
  }

  /**
   * SwitchToTab: ignore an index out of range; otherwise make it active, show
   * exactly that tab and take over its fullscreen state.
   */
  function SwitchToTab(s: ShellState, index: int): (r: ShellState)
    ensures !(0 <= index < |s.tabs|) ==> r == s
    ensures 0 <= index < |s.tabs| ==>
      && r.activeTabIndex == index
      && SameSurfaces(s.tabs, r.tabs)
      && VisibleExactly(r.tabs, index)
      && r.isVideoFullScreen == s.tabs[index].wantsFullScreen
      && r == s.(tabs := r.tabs, activeTabIndex := index, isVideoFullScreen := r.isVideoFullScreen)
  {
    if index < 0 || index >= |s.tabs| then s
    else s.(activeTabIndex := index,
            tabs := ShowOnly(s.tabs, index),
            isVideoFullScreen := s.tabs[index].wantsFullScreen)
  }

  /**
   * CloseTab: ignore an index out of range; otherwise remove that tab. With no
   * tab left the shell quits (the active index is left as it was); otherwise
   * the active position is clamped to the new last index and re-activated.
   */
  function CloseTab(s: ShellState, index: int): (r: ShellState)
    ensures !(0 <= index < |s.tabs|) ==> r == s
    ensures 0 <= index < |s.tabs| ==>
      && SameSurfaces(r.tabs, Remove(s.tabs, index))
      && r.historyList == s.historyList && r.nextId == s.nextId
      && r.isSidebarOpen == s.isSidebarOpen && r.isExtrasView == s.isExtrasView
      && r.isExpanded == s.isExpanded && r.currentSidebarWidth == s.currentSidebarWidth
    ensures 0 <= index < |s.tabs| && |s.tabs| == 1 ==>
      r == s.(tabs := [], quit := true)
    ensures 0 <= index < |s.tabs| && |s.tabs| > 1 && s.activeTabIndex < 0 ==>
      r == s.(tabs := Remove(s.tabs, index))
    ensures 0 <= index < |s.tabs| && |s.tabs| > 1 && s.activeTabIndex >= 0 ==>
      && r.activeTabIndex == Min(s.activeTabIndex, |s.tabs| - 2)
      && VisibleExactly(r.tabs, r.activeTabIndex)
      && r.isVideoFullScreen == r.tabs[r.activeTabIndex].wantsFullScreen
      && r.quit == s.quit
  {
    if index < 0 || index >= |s.tabs| then s
    else
      var rest := Remove(s.tabs, index);
      if |rest| == 0 then s.(tabs := rest, quit := true)
      else
        var active := if s.activeTabIndex >= |rest| then |rest| - 1 else s.activeTabIndex;
        SwitchToTab(s.(tabs := rest, activeTabIndex := active), active)
  }

  /** How the asynchronous environment and controller creation ended. */
  datatype CreationOutcome = EnvironmentFailed | ControllerFailed | Created

  /** Every surface id is below the allocator. */
  predicate IdsBelow(tabs: seq<Tab>, bound: nat)
  {
    forall i :: 0 <= i < |tabs| ==> tabs[i].id < bound
  }

  /**
   * Completion of CreateNewTab: a failed environment or controller leaves the
   * shell untouched; a new controller is appended as a "New Tab" tab and
   * switched to. A fresh surface holds no fullscreen element.
   */
  function CreateNewTab(s: ShellState, outcome: CreationOutcome): (r: ShellState)
    ensures !outcome.Created? ==> r == s
    ensures outcome.Created? ==>
      && |r.tabs| == |s.tabs| + 1
      && SameSurfaces(r.tabs[..|s.tabs|], s.tabs)
      && r.tabs[|s.tabs|].title == NEW_TAB_TITLE
      && !r.tabs[|s.tabs|].wantsFullScreen
      && (IdsBelow(s.tabs, s.nextId) ==>
            forall i :: 0 <= i < |s.tabs| ==> s.tabs[i].id != r.tabs[|s.tabs|].id)
      && r.activeTabIndex == |s.tabs|
      && VisibleExactly(r.tabs, |s.tabs|)
      && !r.isVideoFullScreen
      && r.historyList == s.historyList && r.quit == s.quit
      && r.isSidebarOpen == s.isSidebarOpen && r.isExtrasView == s.isExtrasView
      && r.isExpanded == s.isExpanded && r.currentSidebarWidth == s.currentSidebarWidth
  {
    if !outcome.Created? then s
    else
      var tab := Tab(s.nextId, NEW_TAB_TITLE, false, true);
      var grown := s.(tabs := s.tabs + [tab], nextId := s.nextId + 1);
      assert SameSurfaces(grown.tabs[..|s.tabs|], s.tabs);
      SwitchToTab(grown, |grown.tabs| - 1)
  }

  /** DocumentTitleChanged: retitle every tab whose surface sent it. */
  function OnTitleChanged(s: ShellState, id: nat, title: string): (r: ShellState)
    ensures |r.tabs| == |s.tabs|
    ensures forall i :: 0 <= i < |s.tabs| && s.tabs[i].id == id ==> r.tabs[i] == s.tabs[i].(title := title)
    ensures forall i :: 0 <= i < |s.tabs| && s.tabs[i].id != id ==> r.tabs[i] == s.tabs[i]
    ensures r == s.(tabs := r.tabs)
  {
    s.(tabs := seq(|s.tabs|, i requires 0 <= i < |s.tabs| =>
                     if s.tabs[i].id == id then s.tabs[i].(title := title) else s.tabs[i]))
  }

  /**
   * ContainsFullScreenElementChanged from the surface `id`: that surface now
   * reports `fs`, and the global flag takes it whether or not the tab is active.
   */
  function OnFullScreenChanged(s: ShellState, id: nat, fs: bool): (r: ShellState)
    ensures r.isVideoFullScreen == fs
    ensures |r.tabs| == |s.tabs|
    ensures forall i :: 0 <= i < |s.tabs| && s.tabs[i].id == id ==> r.tabs[i] == s.tabs[i].(wantsFullScreen := fs)
    ensures forall i :: 0 <= i < |s.tabs| && s.tabs[i].id != id ==> r.tabs[i] == s.tabs[i]
    ensures r == s.(tabs := r.tabs, isVideoFullScreen := fs)
  {
    s.(tabs := seq(|s.tabs|, i requires 0 <= i < |s.tabs| =>
                     if s.tabs[i].id == id then s.tabs[i].(wantsFullScreen := fs) else s.tabs[i]),
       isVideoFullScreen := fs)
  }

  /** SourceChanged from any surface: record the URL in the history log. */
  function OnSourceChanged(s: ShellState, url: string): (r: ShellState)
    ensures |r.historyList| > 0 && r.historyList[0] == url
    ensures |s.historyList| <= History.HISTORY_CAPACITY ==>
      r.historyList == [url] + s.historyList[..Min(|s.historyList|, History.HISTORY_CAPACITY - 1)]
    ensures r == s.(historyList := r.historyList)
  {
    s.(historyList := History.Record(s.historyList, url))
  }

  /** Sidebar width that goes with the expand flag. */
  function SidebarWidthFor(expanded: bool): int
  {
    if expanded then Geometry.SIDEBAR_MAX_WIDTH else Geometry.SIDEBAR_MIN_WIDTH
  }

  /**
   * WM_COMMAND. The close button quits; the sidebar, view and expand buttons
   * flip their flag (expand also picks the width). The new-tab button only
   * starts the asynchronous creation, whose completion is CreateNewTab;
   * minimise and maximise act on the window alone; every other identifier,
   * the clear-history button's included, has no case and changes nothing.
   */
  function OnCommand(s: ShellState, id: int): (r: ShellState)
    ensures id == IDC_WIN_CLOSE ==> r == s.(quit := true)
    ensures id == IDC_SIDEBAR_BTN ==>
      r.isSidebarOpen != s.isSidebarOpen && r == s.(isSidebarOpen := r.isSidebarOpen)
    ensures id == IDC_TOGGLE_VIEW_BTN ==>
      r.isExtrasView != s.isExtrasView && r == s.(isExtrasView := r.isExtrasView)
    ensures id == IDC_EXPAND_SIDEBAR ==>
      && r.isExpanded != s.isExpanded
      && r.currentSidebarWidth == SidebarWidthFor(r.isExpanded)
      && r == s.(isExpanded := r.isExpanded, currentSidebarWidth := r.currentSidebarWidth)
    ensures id !in {IDC_WIN_CLOSE, IDC_SIDEBAR_BTN, IDC_TOGGLE_VIEW_BTN, IDC_EXPAND_SIDEBAR} ==> r == s
  {
    if id == IDC_WIN_CLOSE then s.(quit := true)
    else if id == IDC_SIDEBAR_BTN then s.(isSidebarOpen := !s.isSidebarOpen)
    else if id == IDC_TOGGLE_VIEW_BTN then s.(isExtrasView := !s.isExtrasView)
    else if id == IDC_EXPAND_SIDEBAR then
      var expanded := !s.isExpanded;
      s.(isExpanded := expanded, currentSidebarWidth := SidebarWidthFor(expanded))
    else s
  }

  /** WM_LBUTTONDOWN: close or switch to the tab under the click, if any. */
  function OnLeftButtonDown(s: ShellState, x: int, y: int): (r: ShellState)
    ensures HitTest.TabAt(x, y, |s.tabs|).Miss? ==> r == s
    ensures HitTest.TabAt(x, y, |s.tabs|).CloseAt? ==>
      var i := HitTest.TabAt(x, y, |s.tabs|).index;
      && |r.tabs| == |s.tabs| - 1
      && SameSurfaces(r.tabs, Remove(s.tabs, i))
      && r.quit == (s.quit || |s.tabs| == 1)
      && (|r.tabs| > 0 ==> r.activeTabIndex == Min(s.activeTabIndex, |r.tabs| - 1))
      && (|r.tabs| > 0 && s.activeTabIndex >= 0 ==>
            && VisibleExactly(r.tabs, r.activeTabIndex)
            && r.isVideoFullScreen == r.tabs[r.activeTabIndex].wantsFullScreen)
      && (|r.tabs| > 0 && s.activeTabIndex < 0 ==>
            r.tabs == Remove(s.tabs, i) && r.isVideoFullScreen == s.isVideoFullScreen)
      && (|r.tabs| == 0 ==>
            r.activeTabIndex == s.activeTabIndex && r.isVideoFullScreen == s.isVideoFullScreen)
      && r == s.(tabs := r.tabs, activeTabIndex := r.activeTabIndex,
                 isVideoFullScreen := r.isVideoFullScreen, quit := r.quit)
    ensures HitTest.TabAt(x, y, |s.tabs|).SwitchTo? ==>
      var i := HitTest.TabAt(x, y, |s.tabs|).index;
      && r.activeTabIndex == i
      && SameSurfaces(s.tabs, r.tabs)
      && VisibleExactly(r.tabs, i)
      && r.isVideoFullScreen == s.tabs[i].wantsFullScreen
      && r == s.(tabs := r.tabs, activeTabIndex := i, isVideoFullScreen := r.isVideoFullScreen)
  {
    match HitTest.TabAt(x, y, |s.tabs|)
    case Miss => s
    case CloseAt(i) => CloseTab(s, i)
    case SwitchTo(i) => SwitchToTab(s, i)
  }

  /** Everything that reaches the shell from the window or the surfaces. */
  datatype Event =
    | TabCreated(outcome: CreationOutcome)
    | SourceChanged(url: string)
    | TitleChanged(tab: nat, title: string)
    | FullScreenChanged(tab: nat, wantsFullScreen: bool)
    | Command(id: int)
    | LeftButtonDown(x: int, y: int)
    | Destroy

  function Step(s: ShellState, e: Event): ShellState
  {
    match e
    case TabCreated(outcome) => CreateNewTab(s, outcome)
    case SourceChanged(url) => OnSourceChanged(s, url)
    case TitleChanged(id, title) => OnTitleChanged(s, id, title)
    case FullScreenChanged(id, fs) => OnFullScreenChanged(s, id, fs)
    case Command(id) => OnCommand(s, id)
    case LeftButtonDown(x, y) => OnLeftButtonDown(s, x, y)
    case Destroy => s.(quit := true)
  }

  function Run(s: ShellState, events: seq<Event>): ShellState
    decreases |events|
  {
    if events == [] then s else Run(Step(s, events[0]), events[1..])
  }

  /**
   * UpdateLayout: nothing happens unless the active index names a tab; then
   * the active surface and the header controls are placed from the flags.
   */
  function Layout(s: ShellState, right: int, bottom: int): (p: Option<Geometry.Placement>)
    ensures p.Some? <==> 0 <= s.activeTabIndex < |s.tabs|
    ensures p.Some? && s.isVideoFullScreen ==> p.value.content == Geometry.Rect(0, 0, right, bottom)
    ensures p.Some? && !s.isVideoFullScreen ==>
      p.value.content == Geometry.Rect(if s.isSidebarOpen then s.currentSidebarWidth else 0,
                                       Geometry.HEADER_TOTAL_HEIGHT, right, bottom)
  {
    if s.activeTabIndex == -1 || s.activeTabIndex >= |s.tabs| then None
    else Some(Geometry.PlaceControls(s.isVideoFullScreen, s.isSidebarOpen, s.currentSidebarWidth, right, bottom))
  }
}

=== FILE: shell_properties.dfy ===
/**
 * Invariants of the shell state machine and the properties its transitions
 * keep: a valid active index with exactly one visible tab, distinct surface
 * ids, a bounded history log and a sidebar width matching the expand flag.
 */
module ShellProperties {
  import opened Wrappers
  import opened Shell
  import Geometry
  import History

  predicate IdsDistinct(tabs: seq<Tab>)
  {
    forall i, j :: 0 <= i < j < |tabs| ==> tabs[i].id != tabs[j].id
  }

  predicate Valid(s: ShellState)
  {
    && (|s.tabs| > 0 ==> 0 <= s.activeTabIndex < |s.tabs| && VisibleExactly(s.tabs, s.activeTabIndex))
    && (|s.tabs| == 0 && !s.quit ==> s.activeTabIndex == -1)
    && |s.historyList| <= History.HISTORY_CAPACITY
    && s.currentSidebarWidth == SidebarWidthFor(s.isExpanded)
    && IdsDistinct(s.tabs)
    && IdsBelow(s.tabs, s.nextId)
  }

  /** The global fullscreen flag mirrors the active surface. */
  predicate Synced(s: ShellState)
  {
    0 <= s.activeTabIndex < |s.tabs| ==> s.isVideoFullScreen == s.tabs[s.activeTabIndex].wantsFullScreen
  }

  lemma InitValid()
    ensures Valid(Init()) && Synced(Init())
    ensures Init().tabs == [] && Init().activeTabIndex == -1 && !Init().quit
  {
  }

  /** Each transition keeps the invariants; StepKeepsValid puts them together. */
  lemma CreateKeepsValid(s: ShellState, outcome: CreationOutcome)
    requires Valid(s)
    ensures Valid(CreateNewTab(s, outcome))
    ensures outcome.Created? ==> Synced(CreateNewTab(s, outcome))
  {
  }

  lemma CloseKeepsValid(s: ShellState, index: int)
    requires Valid(s)
    ensures Valid(CloseTab(s, index))
  {
  }

  lemma TitleChangeKeepsValid(s: ShellState, id: nat, title: string)
    requires Valid(s)
    ensures Valid(OnTitleChanged(s, id, title))
  {
  }

  lemma FullScreenChangeKeepsValid(s: ShellState, id: nat, fs: bool)
    requires Valid(s)
    ensures Valid(OnFullScreenChanged(s, id, fs))
  {
  }

  lemma ClickKeepsValid(s: ShellState, x: int, y: int)
    requires Valid(s)
    ensures Valid(OnLeftButtonDown(s, x, y))
  {
  }

  lemma StepKeepsValid(s: ShellState, e: Event)
    requires Valid(s)
    ensures Valid(Step(s, e))
  {
    match e
    case TabCreated(outcome) => CreateKeepsValid(s, outcome);
    case LeftButtonDown(x, y) => ClickKeepsValid(s, x, y);
    case TitleChanged(id, title) => TitleChangeKeepsValid(s, id, title);
    case FullScreenChanged(id, fs) => FullScreenChangeKeepsValid(s, id, fs);
    case _ =>
  }

  /** Every state reachable from a valid one is valid. */
  lemma {:induction false} RunKeepsValid(s: ShellState, events: seq<Event>)
    requires Valid(s)
    ensures Valid(Run(s, events))
    decreases |events|
  {
    if events != [] {
      StepKeepsValid(s, events[0]);
      RunKeepsValid(Step(s, events[0]), events[1..]);
    }
  }

  /** Every event keeps the global flag in step with the active surface, except a fullscreen change of another surface. */
  lemma StepKeepsSynced(s: ShellState, e: Event)
    requires Valid(s) && Synced(s)
    requires e.FullScreenChanged? ==>
      0 <= s.activeTabIndex < |s.tabs| && s.tabs[s.activeTabIndex].id == e.tab
    ensures Synced(Step(s, e))
  {
  }

  /** A fullscreen change of a background tab flips the global flag and leaves it out of step. */
  lemma BackgroundFullScreenDesyncs(s: ShellState, k: nat, fs: bool)
    requires Valid(s) && k < |s.tabs| && k != s.activeTabIndex
    requires fs != s.tabs[s.activeTabIndex].wantsFullScreen
    ensures Step(s, FullScreenChanged(s.tabs[k].id, fs)).isVideoFullScreen == fs
    ensures !Synced(Step(s, FullScreenChanged(s.tabs[k].id, fs)))
  {
  }

  /** Switching to the tab that is already active changes nothing. */
  lemma SwitchToActiveIsNoOp(s: ShellState)
    requires Valid(s) && Synced(s)
    ensures SwitchToTab(s, s.activeTabIndex) == s
  {
  }

  /**
   * Closing a tab left of the active one keeps the active position, so when
   * the active tab was not the last one the tab to its right becomes active.
   */
  lemma CloseBeforeActiveShiftsIdentity(s: ShellState, index: nat)
    requires Valid(s) && index < s.activeTabIndex < |s.tabs| - 1
    ensures CloseTab(s, index).activeTabIndex == s.activeTabIndex
    ensures CloseTab(s, index).tabs[s.activeTabIndex].id == s.tabs[s.activeTabIndex + 1].id
    ensures CloseTab(s, index).tabs[s.activeTabIndex].id != s.tabs[s.activeTabIndex].id
  {
  }

  /** Closing a tab right of the active one keeps the same tab active. */
  lemma CloseAfterActiveKeepsIdentity(s: ShellState, index: nat)
    requires Valid(s) && s.activeTabIndex < index < |s.tabs|
    ensures CloseTab(s, index).activeTabIndex == s.activeTabIndex
    ensures CloseTab(s, index).tabs[s.activeTabIndex].id == s.tabs[s.activeTabIndex].id
  {
  }

  /** Closing a tab left of an active last tab clamps the index and keeps that tab active. */
  lemma CloseBeforeLastActiveKeepsIdentity(s: ShellState, index: nat)
    requires Valid(s) && index < s.activeTabIndex == |s.tabs| - 1
    ensures CloseTab(s, index).activeTabIndex == s.activeTabIndex - 1
    ensures CloseTab(s, index).tabs[s.activeTabIndex - 1].id == s.tabs[s.activeTabIndex].id
  {
  }

  /** A notification from a surface that is no longer registered retitles nothing. */
  lemma StaleTitleChangeIgnored(s: ShellState, id: nat, title: string)
    requires forall i :: 0 <= i < |s.tabs| ==> s.tabs[i].id != id
    ensures OnTitleChanged(s, id, title) == s
  {
  }

  /** Each toggle command undoes itself. */
  lemma ToggleCommandsAreInvolutions(s: ShellState, id: int)
    requires Valid(s)
    requires id in {IDC_SIDEBAR_BTN, IDC_TOGGLE_VIEW_BTN, IDC_EXPAND_SIDEBAR}
    ensures OnCommand(OnCommand(s, id), id) == s
  {
  }

  /**
   * In windowed mode the active surface starts at x = 0 with the sidebar
   * closed, and at 260 or 550, matching the expand flag, with it open.
   */
  lemma ContentBoundsFollowSidebar(s: ShellState, right: int, bottom: int)
    requires Valid(s) && |s.tabs| > 0
    ensures Layout(s, right, bottom).Some?
    ensures var c := Layout(s, right, bottom).value.content;
      if s.isVideoFullScreen then c == Geometry.Rect(0, 0, right, bottom)
      else
        && c.top == Geometry.HEADER_TOTAL_HEIGHT && c.right == right && c.bottom == bottom
        && (!s.isSidebarOpen ==> c.left == 0)
        && (s.isSidebarOpen && !s.isExpanded ==> c.left == 260)
        && (s.isSidebarOpen && s.isExpanded ==> c.left == 550)
  {
  }

  /** Three successful creations give three tabs with the last one active. */
  lemma CreateThreeTabs()
    ensures var s := Run(Init(), [TabCreated(Created), TabCreated(Created), TabCreated(Created)]);
            |s.tabs| == 3 && s.activeTabIndex == 2 && s.tabs[2].visible && !s.tabs[0].visible
  {
  }

  /** Failed creations leave the shell without tabs, and without quitting. */
  lemma FailedCreationLeavesNoTab()
    ensures var s := Run(Init(), [TabCreated(EnvironmentFailed), TabCreated(ControllerFailed)]);
            s == Init()
  {
  }

  /** Closing the only tab raises quit. */
  lemma CloseOnlyTabQuits(s: ShellState)
    requires Valid(s) && |s.tabs| == 1
    ensures CloseTab(s, 0).quit && CloseTab(s, 0).tabs == []
  {
  }
}

=== FILE: wrappers.dfy ===
/** The optional-value datatype used across the model. */
module Wrappers {

  datatype Option<+T> = None | Some(value: T)

  function Min(a: int, b: int): int
  {
    if a < b then a else b
  }
}
